=== FILE: README.md ===
# Citizen service dashboard — a Dafny model of its list pages, create forms and id allocation

The citizen-service application is a React dashboard over a FastAPI/MySQL
backend. Most of it is rendering and request forwarding. This project models
the deterministic logic inside it:

* **Derived views of the list pages** (Grievances, Service Requests). The
  status filter has an "All" bucket. The filter buttons carry per-status
  counts. Badge and colour classes come from lookup tables with a default.
  The Services page resolves department ids to names, with `Unknown` when
  no department matches.
* **The create-form controllers** (Grievances, Services). Each is a state
  machine over the page state: the modal flag, the draft, the fetched
  collections and the loading flag. Id fields are coerced from text to
  numbers. The draft is reset on success and on cancel. On failure the
  alert text is chosen as `detail`, else `message`, else a fixed fallback.
  The page fetch commits its collections all together or not at all.
* **The backend routers** for grievances and service requests. A new id is
  `(max or 0) + 1`. Listing is `OFFSET skip LIMIT limit`. A grievance
  insert rejected with an integrity or operational error (a constraint or
  the status trigger) is rolled back and answered 400 with the database's
  message; any other database error is an uncaught 500.

Modules: `Wrappers` (Option/Result), `Js` (string truthiness, `parseInt`,
`String(n)`, object lookup with `||`, JSON `NaN`), `Records` (the entities),
`StatusViews` (generic filtering and tallies), `Http` (responses, the
client's error object, alert text, `Promise.all`), `Table` (key allocation
and paging), `GrievancesRouter`, `ServiceRequestsRouter`, `GrievancesPage`,
`ServiceRequestsPage`, `ServicesPage`, and `Scenarios`, which joins routers
to pages.

Each event handler is a pure function. It takes the page state and what the
event delivered: the settled result of an HTTP call, or the clock's date as
a `today` string. It returns the next page state, and for a submit also an
`Effect`, which is either a refetch or an alert text. The database's answer
to an insert is a `Verdict` parameter: accepted, or rejected with an error
class and a message. The MySQL triggers that validate status and
description are not part of this model, so any rejection reason is allowed.

Notes on the code's behaviour:

* Opening a modal does not reset the draft (`setShowModal(true)` only). A
  reset happens only after a successful submit and on Cancel.
* A failed page fetch is only logged to the console. No notification is
  shown, so `FetchDone` has no effect besides clearing `loading`.
* The named status counts add up to the "All" count only when every record
  has one of the known statuses. In general they add up to at most "All".
* The service form sends `parseInt("")`, which is `NaN`, not `null`.
  `JSON.stringify` writes `NaN` as `null`, so both forms put `null` on the
  wire (`Scenarios.EmptySelectionOnTheWire`).
* Both list pages fetch with the client's default `skip=0&limit=100` and
  never ask for a second page. Once a table holds 100 rows, a newly created
  record is not shown and the "All" count stays at 100
  (`Scenarios.CreatedGrievanceHiddenPastLimit`,
  `Scenarios.CreatedRequestHiddenPastLimit`).
* An exception a router does not catch is answered with a 500 by the
  server's outermost error handler, which sits outside the CORS middleware
  (`app/main.py:28-34`), so that response carries no CORS headers. The
  client's default base URL (port 8000) is a different origin from the
  pages (ports 3000 or 5173), so the browser withholds the response and the
  page sees "Network Error". An `HTTPException` answer, such as the
  grievance router's 400, does carry the headers and reaches the page with
  its `detail` (`Scenarios.ClientError`).

## Model

| member | source | states |
|---|---|---|
| Js.ParseInt | citizen-service-app/frontend/src/pages/Services.jsx:40 | `parseInt` of empty text is NaN (`None`) |
| Js.ParseIntOfIntText | citizen-service-app/frontend/src/pages/Grievances.jsx:46-47 | `parseInt` reads back every integer `String` renders, so a selected id is parsed to itself |
| Js.IntText | citizen-service-app/frontend/src/pages/Grievances.jsx:219 | `String(n)` of an id: decimal digits without a leading zero, after a `-` for a negative id |
| Js.LookupOr | citizen-service-app/frontend/src/pages/Grievances.jsx:77 | `table[key] \|\| default`: the table's value when the key is present with a non-empty value, the default otherwise |
| Js.Wire | citizen-service-app/frontend/src/pages/Services.jsx:38-41 | in the JSON body an id is a number exactly when it is a number; NaN and null are both written `null` |
| Http.Rejection | citizen-service-app/frontend/src/pages/Grievances.jsx:62-64 | the client error for an error status carries the response's `detail` and a non-empty message |
| Http.ErrorText | citizen-service-app/frontend/src/pages/Grievances.jsx:62-65 | the alert message is a non-empty `detail`, else a non-empty `message`, else the fallback; it is non-empty when the fallback is |
| Http.AlertText | citizen-service-app/frontend/src/pages/Grievances.jsx:67 | the alert is the message behind exactly the prefix U+274C followed by a space |
| Http.All2 | citizen-service-app/frontend/src/pages/Services.jsx:22-25 | join-all succeeds iff both calls succeed, with both values; otherwise it fails with one of the failures |
| Http.All3 | citizen-service-app/frontend/src/pages/Grievances.jsx:26-30 | join-all succeeds iff all three calls succeed, with the three values; otherwise it fails with one of the failures |
| StatusViews.Select | citizen-service-app/frontend/src/pages/Grievances.jsx:83 | the filter result has only records with the label; each record with the label keeps its multiplicity; it is no longer than the input |
| StatusViews.Filtered | citizen-service-app/frontend/src/pages/Grievances.jsx:80-83 | "All" returns the input itself; another label returns exactly the records whose status equals it |
| StatusViews.SelectEmbeds | citizen-service-app/frontend/src/pages/Grievances.jsx:83 | the filter result is an order-preserving subsequence of the input |
| StatusViews.SelectAllMatching | citizen-service-app/frontend/src/pages/ServiceRequests.jsx:37 | filtering a list whose records all carry the label returns it unchanged |
| StatusViews.SelectIsWholeIff | citizen-service-app/frontend/src/pages/ServiceRequests.jsx:37 | filtering returns the whole list iff every record carries the label |
| StatusViews.SelectIdempotent | citizen-service-app/frontend/src/pages/ServiceRequests.jsx:37 | filtering twice by one label equals filtering once |
| StatusViews.SelectAppend | citizen-service-app/frontend/src/pages/Grievances.jsx:83 | filtering a concatenation is the concatenation of the filtered parts |
| StatusViews.FilteredIsOrderedSelection | citizen-service-app/frontend/src/pages/Grievances.jsx:80-83 | "All" shows the input; another label shows an order-preserving subsequence that contains every matching record |
| StatusViews.FilteredIdempotent | citizen-service-app/frontend/src/pages/ServiceRequests.jsx:35-37 | applying the active filter twice shows the same list as once |
| StatusViews.SumCountsStep | citizen-service-app/frontend/src/pages/ServiceRequests.jsx:39-45 | for distinct labels, one record adds one to the summed counts iff its status is one of the labels |
| StatusViews.TalliesPartition | citizen-service-app/frontend/src/pages/ServiceRequests.jsx:39-45 | for distinct labels, the summed counts plus the records with no known status equal the "All" count |
| StatusViews.ZeroCounts | citizen-service-app/frontend/src/pages/ServiceRequests.jsx:39-45 | an empty list has zero in every count |
| StatusViews.TalliesBound | citizen-service-app/frontend/src/pages/Grievances.jsx:85-90 | the summed named counts are at most "All", with equality iff every status is one of the labels |
| StatusViews.UnlabelledOfLabelled | citizen-service-app/frontend/src/pages/Grievances.jsx:85-90 | when every status is known, no record falls outside the named buckets |
| Table.MaxKey | citizen-service-app/backend/app/routers/grievances.py:21 | `MAX(id)` is NULL iff the table is empty, else an existing id that no id exceeds |
| Table.NextKey | citizen-service-app/backend/app/routers/grievances.py:21-22 | the new id is 1 on an empty table, else one more than an existing id, and it exceeds every id |
| Table.AppendNextKey | citizen-service-app/backend/app/routers/service_requests.py:19-26 | appending a row with the allocated id keeps ids pairwise distinct and keeps them increasing |
| Table.Page | citizen-service-app/backend/app/routers/grievances.py:15 | the page is the stored rows from `skip` on, in order, and its length is `min(limit, rows after skip)` |
| Table.PagesConcatenate | citizen-service-app/backend/app/routers/service_requests.py:14 | two consecutive pages equal one page of their joint size |
| Table.FirstPageIsWhole | citizen-service-app/backend/app/routers/grievances.py:13-15 | a first page at least as large as the table is the whole table |
| GrievancesRouter.ListGrievances | citizen-service-app/backend/app/routers/grievances.py:12-15 | a skip and limit between 0 and 2^64 - 1 list at most `limit` stored rows from `skip` in stored order; any other value is an uncaught exception |
| GrievancesRouter.CreateGrievance | citizen-service-app/backend/app/routers/grievances.py:17-33 | an accepted insert appends one row with the submitted fields and an id above all others; an integrity or operational error leaves the table unchanged and answers 400 with the database message; another error leaves it unchanged and escapes the router uncaught |
| GrievancesRouter.AllocatedId | citizen-service-app/backend/app/routers/grievances.py:21-22 | the first grievance gets id 1; later ones get the largest existing id plus one |
| GrievancesRouter.CreateKeepsIdsUnique | citizen-service-app/backend/app/routers/grievances.py:21-28 | after any create, grievance ids stay pairwise distinct and increasing if they were before |
| GrievancesRouter.CreatedRowIsListed | citizen-service-app/backend/app/routers/grievances.py:12-28 | after an accepted create on a table under 100 rows, the default listing is the old table plus the new row last |
| ServiceRequestsRouter.ListServiceRequests | citizen-service-app/backend/app/routers/service_requests.py:11-14 | a skip and limit between 0 and 2^64 - 1 list at most `limit` stored rows from `skip` in stored order; any other value is an uncaught exception |
| ServiceRequestsRouter.CreateServiceRequest | citizen-service-app/backend/app/routers/service_requests.py:16-26 | an accepted insert appends one row with the submitted fields and an id above all others; a rejection leaves the table unchanged and escapes the router uncaught |
| ServiceRequestsRouter.AllocatedId | citizen-service-app/backend/app/routers/service_requests.py:19-20 | the first request gets id 1; later ones get the largest existing id plus one |
| ServiceRequestsRouter.CreateKeepsIdsUnique | citizen-service-app/backend/app/routers/service_requests.py:19-26 | after any create, request ids stay pairwise distinct and increasing if they were before |
| ServiceRequestsRouter.SuccessiveCreatesNumberFromOne | citizen-service-app/backend/app/routers/service_requests.py:19-26 | accepted creates from an empty table number the requests 1, 2, 3, ... in stored order |
| GrievancesPage.BlankDraft | citizen-service-app/frontend/src/pages/Grievances.jsx:12-18 | a blank draft has four empty fields and today's date |
| GrievancesPage.Initial | citizen-service-app/frontend/src/pages/Grievances.jsx:6-18 | the page starts loading, with empty collections, the modal closed, filter "All" and a blank draft |
| GrievancesPage.StatusBadge | citizen-service-app/frontend/src/pages/Grievances.jsx:71-78 | Open gives `badge-danger`, In Progress `badge-warning`, Resolved `badge-success`, any other status `badge-info` |
| GrievancesPage.FilteredGrievances | citizen-service-app/frontend/src/pages/Grievances.jsx:80-83 | "All" lists every grievance; another label lists only grievances with that status, and every such grievance as often as it is fetched |
| GrievancesPage.CountStatuses | citizen-service-app/frontend/src/pages/Grievances.jsx:85-90 | "All" is the list length; each named count is the length of that filter's list; the named counts are at most "All", equal iff every status is one of the three |
| GrievancesPage.FilterProperties | citizen-service-app/frontend/src/pages/Grievances.jsx:80-83 | "All" shows the list itself; another label shows an order-preserving subsequence with exactly the matching grievances; filtering is idempotent |
| GrievancesPage.FetchDone | citizen-service-app/frontend/src/pages/Grievances.jsx:24-39 | all three collections are replaced if every call succeeded, none otherwise; `loading` ends false; modal, draft and filter are kept |
| GrievancesPage.FetchIsAllOrNothing | citizen-service-app/frontend/src/pages/Grievances.jsx:26-33 | after a fetch the three collections are either all old or all new |
| GrievancesPage.OpenModal | citizen-service-app/frontend/src/pages/Grievances.jsx:109 | opening shows the modal and changes nothing else, the draft included |
| GrievancesPage.SetFilter | citizen-service-app/frontend/src/pages/Grievances.jsx:123 | a filter button changes only the filter |
| GrievancesPage.Edit | citizen-service-app/frontend/src/pages/Grievances.jsx:210-212 | editing one field sets that field and keeps every other field and the rest of the page |
| GrievancesPage.CoerceId | citizen-service-app/frontend/src/pages/Grievances.jsx:46-47 | an id field is null iff its text is empty; otherwise it is the parsed integer, or NaN when the text does not parse |
| GrievancesPage.ToPayload | citizen-service-app/frontend/src/pages/Grievances.jsx:44-48 | the body coerces both ids and passes description, status and date unchanged |
| GrievancesPage.SubmitDone | citizen-service-app/frontend/src/pages/Grievances.jsx:41-69 | success closes the modal, blanks the draft with today's date and refetches; failure keeps the page and alerts detail, else message, else the fallback |
| GrievancesPage.Cancel | citizen-service-app/frontend/src/pages/Grievances.jsx:303-312 | cancel closes the modal, blanks the draft and keeps the rest |
| GrievancesPage.RetryPostsSameBody | citizen-service-app/frontend/src/pages/Grievances.jsx:58-68 | after a failed submit the modal stays open and a retry posts the same body |
| GrievancesPage.ReopenedDraft | citizen-service-app/frontend/src/pages/Grievances.jsx:49-56 | reopening after success or cancel shows a blank draft; reopening after a failure shows the old draft |
| GrievancesPage.SelectedIdsReachTheBody | citizen-service-app/frontend/src/pages/Grievances.jsx:216-222 | a selected citizen or department id reaches the body as that number; the placeholder sends null |
| ServiceRequestsPage.Initial | citizen-service-app/frontend/src/pages/ServiceRequests.jsx:6-8 | the page starts loading with no requests and filter "All" |
| ServiceRequestsPage.FetchDone | citizen-service-app/frontend/src/pages/ServiceRequests.jsx:14-23 | success replaces the requests, failure keeps them; `loading` ends false |
| ServiceRequestsPage.SetFilter | citizen-service-app/frontend/src/pages/ServiceRequests.jsx:68 | a filter button changes only the filter |
| ServiceRequestsPage.StatusBadge | citizen-service-app/frontend/src/pages/ServiceRequests.jsx:25-33 | Completed gives success, Pending warning, Rejected danger; Processing and every unmapped status give `badge-info` |
| ServiceRequestsPage.NeutralBadgeIff | citizen-service-app/frontend/src/pages/ServiceRequests.jsx:25-33 | the badge is `badge-info` iff the status is not Completed, Pending or Rejected |
| ServiceRequestsPage.FilteredRequests | citizen-service-app/frontend/src/pages/ServiceRequests.jsx:35-37 | "All" lists every request; another label lists only requests with that status, and every such request as often as it is fetched |
| ServiceRequestsPage.FilterProperties | citizen-service-app/frontend/src/pages/ServiceRequests.jsx:35-37 | "All" shows the list itself; another label shows an order-preserving subsequence with exactly the matching requests, each as often as in the list; filtering is idempotent |
| ServiceRequestsPage.CountStatuses | citizen-service-app/frontend/src/pages/ServiceRequests.jsx:39-45 | "All" is the length; each named count is that filter's list length; the four are at most "All", equal iff every status is one of the four |
| ServiceRequestsPage.PaymentCell | citizen-service-app/frontend/src/pages/ServiceRequests.jsx:107 | a non-null, non-zero payment id is shown as its decimal text |
| ServiceRequestsPage.PaymentCellIsNAIff | citizen-service-app/frontend/src/pages/ServiceRequests.jsx:107 | the cell reads `N/A` iff the payment id is null or 0 |
| ServicesPage.Initial | citizen-service-app/frontend/src/pages/Services.jsx:6-14 | the page starts loading, with empty collections, the modal closed and a blank draft |
| ServicesPage.DepartmentName | citizen-service-app/frontend/src/pages/Services.jsx:57-60 | the name of the first department with that id, or `Unknown` when none has it |
| ServicesPage.DepartmentNameOfPrefix | citizen-service-app/frontend/src/pages/Services.jsx:57-60 | departments after the first match never change the resolved name |
| ServicesPage.ServiceTypeColor | citizen-service-app/frontend/src/pages/Services.jsx:62-69 | Certificate is blue, Utility green, Grievance orange, any other type gray |
| ServicesPage.FetchDone | citizen-service-app/frontend/src/pages/Services.jsx:20-33 | both collections are replaced if both calls succeeded, neither otherwise; `loading` ends false |
| ServicesPage.OpenModal | citizen-service-app/frontend/src/pages/Services.jsx:88 | opening shows the modal and changes nothing else |
| ServicesPage.Edit | citizen-service-app/frontend/src/pages/Services.jsx:152-157 | editing one field sets that field and keeps the others |
| ServicesPage.CoerceId | citizen-service-app/frontend/src/pages/Services.jsx:40 | the department id is never null; empty text gives NaN; it is a number iff the text parses |
| ServicesPage.ToPayload | citizen-service-app/frontend/src/pages/Services.jsx:38-41 | the body passes name and type unchanged and coerces the department id |
| ServicesPage.SubmitDone | citizen-service-app/frontend/src/pages/Services.jsx:35-55 | success closes the modal, blanks the draft and refetches; failure keeps the page and alerts detail, else message, else the fallback |
| ServicesPage.Cancel | citizen-service-app/frontend/src/pages/Services.jsx:213-220 | cancel closes the modal and resets the draft to three empty strings |
| ServicesPage.SelectedDepartmentReachesTheBody | citizen-service-app/frontend/src/pages/Services.jsx:199-203 | a selected department id reaches the body as that number |
| Scenarios.ClientError | citizen-service-app/backend/app/main.py:26-34 | an `HTTPException` answer reaches the page with its `detail`; an uncaught exception reaches it without one, as "Network Error" when the page is cross-origin |
| Scenarios.GrievanceRejectionReachesUser | citizen-service-app/backend/app/routers/grievances.py:30-33 | a trigger or constraint rejection leaves the table unchanged, keeps the page as it was and alerts the database's message |
| Scenarios.GrievanceUncaughtErrorText | citizen-service-app/backend/app/routers/grievances.py:20-33 | any other database error leaves the table unchanged, and the alert shows "Network Error" cross-origin, or the client's 500 status text same-origin; the default deployment is cross-origin |
| Scenarios.ServiceRequestRejectionText | citizen-service-app/backend/app/routers/service_requests.py:22-26 | a rejected service request reaches the client without `detail`: "Network Error" cross-origin, the client's 500 status text same-origin |
| Scenarios.NetworkFailureText | citizen-service-app/frontend/src/pages/Services.jsx:48-53 | with no response the alert shows the client's "Network Error" |
| Scenarios.EmptySelectionOnTheWire | citizen-service-app/frontend/src/pages/Services.jsx:38-41 | an empty selection is null in the grievance form and NaN in the service form; both are `null` in the JSON body |
| Scenarios.CreatedGrievanceIsShown | citizen-service-app/frontend/src/pages/Grievances.jsx:49-57 | when the table holds fewer than 100 grievances, an accepted create and a successful refetch make "All" show the old table plus the new grievance, on a closed modal and blank draft |
| Scenarios.CreatedGrievanceHiddenPastLimit | citizen-service-app/frontend/src/pages/Grievances.jsx:26-31 | when the table holds 100 or more grievances, the refetch after a create shows only the first 100 stored rows, without the new grievance, and "All" counts 100 |
| Scenarios.CreatedRequestHiddenPastLimit | citizen-service-app/frontend/src/pages/ServiceRequests.jsx:16-17 | when the table holds 100 or more requests, a newly created request is not shown and "All" counts 100 |
| Scenarios.ThreeGrievancesExample | citizen-service-app/frontend/src/pages/Grievances.jsx:80-90 | for statuses Open, Open, Resolved, the Open filter gives the two Open grievances in order and the counts are 3, 2, 0, 1 |

## Left out

- Rendering (JSX, CSS layout classes, icons, charts) and locale formatting of dates: presentation only.
- The Dashboard page, the HTTP client configuration, the routing shell, the stored-procedure and log routers, the FastAPI app wiring and the ad-hoc trigger script: they hold no logic beyond forwarding.
- The MySQL triggers and the request schemas (`app/schemas`, `app/database.py`) are not part of this model. A database rejection is the `Verdict` parameter, and body validation is folded into it.
- Asynchrony: each HTTP call is an event that delivers a settled `Result`. Interleavings, such as a fetch settling after the page is gone, are not modelled.
- `console.error` logging: it has no effect on the page.
- Js.ParseInt: decimal and `0x` hex only; numbers above 2^53 lose precision in JavaScript, and that rounding is not modelled.
- Js.IntText: ids of 10^21 or more, which JavaScript renders in exponent form, are not modelled.
- Js.LookupOr: keys inherited from `Object.prototype` (such as `toString` or `constructor`) are treated as absent. Grievance statuses are validated by a database trigger; service types and request statuses are not restricted anywhere and normally come from the forms' fixed options, so a type named after such a key would not get the grey fallback in JavaScript.
- Scenarios.ClientError: the missing CORS headers on an uncaught-exception 500 come from the web framework's middleware order (Starlette's), which lives outside this repository; `sameOrigin` covers both deployments.
- Scenarios.ServiceRequestRejectionText: none of the modelled pages posts a service request, so this states what any caller of `createServiceRequest` would see.
- Http.ErrorText: a `detail` that is not a string, such as FastAPI's validation-error list, is not modelled.
- Http.All2: does not say which failure is reported when several calls fail, because that depends on timing; the pages only log it.
- Http.All3: as for `Http.All2`, which failure is reported is left open.
- GrievancesRouter.ListGrievances: there is no ORDER BY, so the stored order is taken to be insertion order. A skip or limit that is negative or above 2^64 - 1 is taken to be refused by MySQL (its grammar reads `LIMIT` and `OFFSET` as unsigned 64-bit literals), which the router does not catch.
- ServiceRequestsRouter.ListServiceRequests: same assumptions about stored order and out-of-range skip or limit as for grievances.
- GrievancesRouter.CreateGrievance: a failure after the commit, in `refresh`, is not modelled, and neither is a 32-bit overflow of the id column.
- ServiceRequestsRouter.CreateServiceRequest: a rejected insert fails at the commit and leaves the table unchanged; a failure after the commit, in `refresh`, which would store the row and still answer 500, is not modelled.
- Records.Service: the department id is taken to be a non-null integer.

=== FILE: grievances_page.dfy ===
/** The Grievances page: the fetched grievances, departments and citizens,
    the loading flag, the active status filter, and the "New Grievance"
    modal with its draft.  Every event handler is a function from the page
    state (and what the event delivered) to the next page state. */
module GrievancesPage {
  import opened Wrappers
  import opened Records
  import opened Http
  import Js
  import StatusViews

  /** The statuses the page knows, in the order of its filter buttons. */
  const Open := "Open"
  const InProgress := "In Progress"
  const Resolved := "Resolved"
  const Statuses := [Open, InProgress, Resolved]

  const Fallback := "An unexpected error occurred while creating the grievance."

  /** The form's draft: every field as the text its control holds. */
  datatype Draft = Draft(citizenId: string, departmentId: string, description: string, status: string, date: string)

  /** The body the form posts: ids coerced to numbers or null. */
  datatype Payload = Payload(citizenId: Js.JsId, departmentId: Js.JsId, description: string, status: string, date: string)

  datatype Page = Page(
    grievances: seq<Grievance>,
    departments: seq<Department>,
    citizens: seq<Citizen>,
    loading: bool,
    showModal: bool,
    filter: string,
    draft: Draft)


  /** Empty fields and today's date (`today` is the ISO `YYYY-MM-DD` date the
      clock gives when the draft is made). */
  function BlankDraft(today: string): (d: Draft)
    ensures d.citizenId == "" && d.departmentId == "" && d.description == "" && d.status == ""
    ensures d.date == today
  {
    Draft("", "", "", "", today)
  }

  /** The page as first rendered, before its fetch completes. */
  function Initial(today: string): (p: Page)
    ensures p.loading && !p.showModal && p.filter == StatusViews.AllLabel
    ensures p.grievances == [] && p.departments == [] && p.citizens == []
    ensures p.draft == BlankDraft(today)
  {
    Page([], [], [], true, false, StatusViews.AllLabel, BlankDraft(today))
  }

  // ---------------------------------------------------------------------
  // Derived views

  /** The badge class for a status; unknown statuses get the neutral one. */
  function StatusBadge(status: string): (r: string)
    ensures status == Open ==> r == "badge-danger"
    ensures status == InProgress ==> r == "badge-warning"
    ensures status == Resolved ==> r == "badge-success"
    ensures status !in Statuses ==> r == "badge-info"
  {
    Js.LookupOr(map[Open := "badge-danger", InProgress := "badge-warning", Resolved := "badge-success"],
                status, "badge-info")
  }

  /** The grievances listed under the active filter. */
  function FilteredGrievances(gs: seq<Grievance>, filter: string): (r: seq<Grievance>)
    ensures filter == StatusViews.AllLabel ==> r == gs
    ensures filter != StatusViews.AllLabel ==> forall i :: 0 <= i < |r| ==> r[i].body.status == filter
    ensures filter != StatusViews.AllLabel ==> forall g :: g in gs && g.body.status == filter ==> g in r
    ensures filter != StatusViews.AllLabel ==>
      forall g :: multiset(r)[g] == if g.body.status == filter then multiset(gs)[g] else 0
  {
    StatusViews.FilteredIsOrderedSelection(gs, GrievanceStatus, filter);
    StatusViews.Filtered(gs, GrievanceStatus, filter)
  }

  datatype StatusCounts = StatusCounts(all: nat, open: nat, inProgress: nat, resolved: nat)

  /** The counts on the filter buttons.  Each named count is the length of
      the list that button shows, "All" is the number of grievances, and the
      named counts add up to "All" exactly when no grievance has a status
      outside the three. */
  function CountStatuses(gs: seq<Grievance>): (c: StatusCounts)
    ensures c.all == |gs| == |FilteredGrievances(gs, StatusViews.AllLabel)|
    ensures c.open == |FilteredGrievances(gs, Open)|
    ensures c.inProgress == |FilteredGrievances(gs, InProgress)|
    ensures c.resolved == |FilteredGrievances(gs, Resolved)|
    ensures c.open + c.inProgress + c.resolved <= c.all
    ensures c.open + c.inProgress + c.resolved == c.all <==>
      forall i :: 0 <= i < |gs| ==> gs[i].body.status in Statuses
  {
    assert StatusViews.Distinct(Statuses);
    var open := StatusViews.Select(gs, GrievanceStatus, Open);
    var inProgress := StatusViews.Select(gs, GrievanceStatus, InProgress);
    var resolved := StatusViews.Select(gs, GrievanceStatus, Resolved);
    assert StatusViews.SumCounts(gs, GrievanceStatus, [Resolved]) == |resolved|;
    assert StatusViews.SumCounts(gs, GrievanceStatus, [InProgress, Resolved]) == |inProgress| + |resolved|;
    assert StatusViews.SumCounts(gs, GrievanceStatus, Statuses) == |open| + |inProgress| + |resolved|;
    StatusViews.TalliesBound(gs, GrievanceStatus, Statuses);
    StatusCounts(|gs|, |open|, |inProgress|, |resolved|)
  }

  /** The list the page shows under its current filter. */
  function Shown(p: Page): seq<Grievance> {
    FilteredGrievances(p.grievances, p.filter)
  }

  /** "All" shows the fetched list itself; any other filter an
      order-preserving subsequence holding exactly the grievances whose
      status equals the filter (their multiplicities are stated by
      `FilteredGrievances`); filtering again changes nothing. */
  lemma FilterProperties(gs: seq<Grievance>, filter: string)
    ensures filter == StatusViews.AllLabel ==> FilteredGrievances(gs, filter) == gs
    ensures filter != StatusViews.AllLabel ==> StatusViews.Embeds(FilteredGrievances(gs, filter), gs)
    ensures filter != StatusViews.AllLabel ==>
      forall i :: 0 <= i < |FilteredGrievances(gs, filter)| ==> FilteredGrievances(gs, filter)[i].body.status == filter
    ensures forall i :: 0 <= i < |gs| && gs[i].body.status == filter ==> gs[i] in FilteredGrievances(gs, filter)
    ensures FilteredGrievances(FilteredGrievances(gs, filter), filter) == FilteredGrievances(gs, filter)
  {
    StatusViews.FilteredIsOrderedSelection(gs, GrievanceStatus, filter);
    StatusViews.FilteredIdempotent(gs, GrievanceStatus, filter);
  }

  // ---------------------------------------------------------------------
  // Fetch

  /** `fetchData` after its three calls settle: all three collections are
      replaced together when every call succeeded, none when any failed,
      and the spinner goes away either way.  The modal, draft and filter are
      untouched. */
  function FetchDone(p: Page, grievances: Result<seq<Grievance>, ApiError>,
                     departments: Result<seq<Department>, ApiError>,
                     citizens: Result<seq<Citizen>, ApiError>): (q: Page)
    ensures !q.loading
    ensures grievances.Success? && departments.Success? && citizens.Success? ==>
      q.grievances == grievances.value && q.departments == departments.value && q.citizens == citizens.value
    ensures !(grievances.Success? && departments.Success? && citizens.Success?) ==>
      q.grievances == p.grievances && q.departments == p.departments && q.citizens == p.citizens
    ensures q.showModal == p.showModal && q.draft == p.draft && q.filter == p.filter
  {
    match All3(grievances, departments, citizens)
    case Success((gs, ds, cs)) => p.(grievances := gs, departments := ds, citizens := cs, loading := false)
    case Failure(_) => p.(loading := false)
  }

  /** No fetch outcome leaves the page with a mix of old and new collections. */
  lemma FetchIsAllOrNothing(p: Page, g: Result<seq<Grievance>, ApiError>,
                            d: Result<seq<Department>, ApiError>, c: Result<seq<Citizen>, ApiError>)
    ensures var q := FetchDone(p, g, d, c);
      || (q.grievances, q.departments, q.citizens) == (p.grievances, p.departments, p.citizens)
      || (g.Success? && d.Success? && c.Success?
          && (q.grievances, q.departments, q.citizens) == (g.value, d.value, c.value))
  {
  }

  // ---------------------------------------------------------------------
  // The create form

  /** The "New Grievance" button: shows the modal and keeps whatever draft
      was there. */
  function OpenModal(p: Page): (q: Page)
    ensures q.showModal && q.draft == p.draft
    ensures q.(showModal := p.showModal) == p
  {
    p.(showModal := true)
  }

  /** A filter button. */
  function SetFilter(p: Page, filter: string): (q: Page)
    ensures q.filter == filter && q.(filter := p.filter) == p
  {
    p.(filter := filter)
  }

  datatype Field = CitizenField | DepartmentField | DescriptionField | StatusField | DateField

  function FieldText(d: Draft, f: Field): string {
    match f
    case CitizenField => d.citizenId
    case DepartmentField => d.departmentId
    case DescriptionField => d.description
    case StatusField => d.status
    case DateField => d.date
  }

  /** A control's `onChange`: the edited field takes the new text and every
      other field keeps its own. */
  function Edit(p: Page, f: Field, text: string): (q: Page)
    ensures FieldText(q.draft, f) == text
    ensures forall g :: g != f ==> FieldText(q.draft, g) == FieldText(p.draft, g)
    ensures q.(draft := p.draft) == p
  {
    var d := p.draft;
    p.(draft := match f
      case CitizenField => d.(citizenId := text)
      case DepartmentField => d.(departmentId := text)
      case DescriptionField => d.(description := text)
      case StatusField => d.(status := text)
      case DateField => d.(date := text))
  }

  /** An id field of the body: null when the control is empty, otherwise
      `parseInt` of its text. */
  function CoerceId(text: string): (v: Js.JsId)
    ensures text == "" <==> v == Js.Null
    ensures v.Num? ==> Js.ParseInt(text) == Some(v.n)
    ensures v == Js.NaN <==> text != "" && Js.ParseInt(text).None?
  {
    if Js.Truthy(text) then
      match Js.ParseInt(text)
      case Some(n) => Js.Num(n)
      case None => Js.NaN
    else Js.Null
  }

  /** The body `handleSubmit` posts: ids coerced, the other fields as typed. */
  function ToPayload(d: Draft): (b: Payload)
    ensures b.citizenId == CoerceId(d.citizenId) && b.departmentId == CoerceId(d.departmentId)
    ensures b.description == d.description && b.status == d.status && b.date == d.date
  {
    Payload(CoerceId(d.citizenId), CoerceId(d.departmentId), d.description, d.status, d.date)
  }

  /** `handleSubmit` once the create call settles.  Success closes the modal,
      blanks the draft (dated `today`) and refetches; failure leaves the page
      exactly as it was and alerts the backend's detail, else the client's
      message, else the fixed text. */
  function SubmitDone(p: Page, created: Result<Grievance, ApiError>, today: string): (r: (Page, Effect))
    ensures created.Success? ==> !r.0.showModal && r.0.draft == BlankDraft(today) && r.1 == Refetch
    ensures created.Success? ==> r.0.(showModal := p.showModal, draft := p.draft) == p
    ensures created.Failure? ==> r.0 == p
    ensures created.Failure? ==> r.1 == Alert(AlertText(ErrorText(created.error, Fallback)))
  {
    match created
    case Success(_) => (p.(showModal := false, draft := BlankDraft(today)), Refetch)
    case Failure(e) => (p, Alert(AlertText(ErrorText(e, Fallback))))
  }

  /** The Cancel button: closes the modal and blanks the draft. */
  function Cancel(p: Page, today: string): (q: Page)
    ensures !q.showModal && q.draft == BlankDraft(today)
    ensures q.(showModal := p.showModal, draft := p.draft) == p
  {
    p.(showModal := false, draft := BlankDraft(today))
  }

  /** A failed submit can be retried as is: the same body is posted again. */
  lemma RetryPostsSameBody(p: Page, e: ApiError, today: string)
    ensures ToPayload(SubmitDone(p, Failure(e), today).0.draft) == ToPayload(p.draft)
    ensures SubmitDone(p, Failure(e), today).0.showModal == p.showModal
  {
  }

  /** After a successful submit or a cancel, reopening the modal shows a
      blank draft; reopening after a failure shows the draft as it was. */
  lemma ReopenedDraft(p: Page, g: Grievance, e: ApiError, today: string)
    ensures OpenModal(SubmitDone(p, Success(g), today).0).draft == BlankDraft(today)
    ensures OpenModal(Cancel(p, today)).draft == BlankDraft(today)
    ensures OpenModal(SubmitDone(p, Failure(e), today).0).draft == p.draft
  {
  }

  /** A select box offers each citizen's and department's id rendered as
      text; submitting it sends exactly that id.  Leaving it on its
      placeholder sends null. */
  lemma SelectedIdsReachTheBody(d: Draft, citizen: int, department: int)
    ensures ToPayload(d.(citizenId := Js.IntText(citizen), departmentId := Js.IntText(department)))
      .citizenId == Js.Num(citizen)
    ensures ToPayload(d.(citizenId := Js.IntText(citizen), departmentId := Js.IntText(department)))
      .departmentId == Js.Num(department)
    ensures ToPayload(d.(citizenId := "", departmentId := "")).citizenId == Js.Null
    ensures ToPayload(d.(citizenId := "", departmentId := "")).departmentId == Js.Null
  {
    Js.ParseIntOfIntText(citizen);
    Js.ParseIntOfIntText(department);
  }
}

=== FILE: grievances_router.dfy ===
/** The `/grievances` router: list with `skip`/`limit`, and create with a
    router-allocated id, where a database rejection (a MySQL trigger that
    validates status and description, or a constraint) is rolled back and
    forwarded to the client as a 400 with the database's message. */
module GrievancesRouter {
  import opened Wrappers
  import opened Records
  import opened Table
  import opened Http

  const DefaultSkip: int := 0
  const DefaultLimit: int := 100

  /** `GET /grievances?skip&limit`: the stored rows from offset `skip`, at most
      `limit` of them.  MySQL refuses an OFFSET or LIMIT that is negative
      or above 2^64 - 1, which surfaces as an uncaught exception. */
  function ListGrievances(rows: seq<Grievance>, skip: int, limit: int): (r: Response<seq<Grievance>>)
    ensures r.Ok? <==> IsLimitLiteral(skip) && IsLimitLiteral(limit)
    ensures !r.Ok? ==> r.Unhandled?
    ensures r.Ok? ==> |r.body| <= limit
    ensures r.Ok? ==> forall i :: 0 <= i < |r.body| ==> skip + i < |rows| && r.body[i] == rows[skip + i]
    ensures r.Ok? && skip + limit <= |rows| ==> |r.body| == limit
    ensures r.Ok? && skip <= |rows| <= skip + limit ==> skip + |r.body| == |rows|
  {
    if !IsLimitLiteral(skip) || !IsLimitLiteral(limit) then Unhandled
    else Ok(Page(rows, skip, limit))
  }

  /** The outcome of a create: the table afterwards and the response. */
  datatype Created = Created(rows: seq<Grievance>, response: Response<Grievance>)

  /** `POST /grievances`.  The id is `(max or 0) + 1`; the row is inserted
      and committed unless the database rejects it.  An integrity or
      operational error is rolled back and answered 400 with the database's
      message as `detail`; any other database error is not caught, so the
      uncommitted row is discarded and the exception escapes the router. */
  function CreateGrievance(rows: seq<Grievance>, body: GrievanceCreate, verdict: Verdict): (c: Created)
    ensures c.response.Ok? <==> verdict.Accepted?
    ensures c.response.Ok? ==>
      && c.rows == rows + [c.response.body]
      && c.response.body.body == body
      && (forall i :: 0 <= i < |rows| ==> rows[i].grievanceId < c.response.body.grievanceId)
    ensures !c.response.Ok? ==> c.rows == rows
    ensures verdict.Rejected? && !verdict.kind.OtherDbError? ==>
      c.response == HttpError(400, verdict.message)
    ensures verdict.Rejected? && verdict.kind.OtherDbError? ==> c.response == Unhandled
  {
    var nextId := NextKey(rows, GrievanceKey);
    var row := Grievance(nextId, body);
    match verdict
    case Accepted => Created(rows + [row], Ok(row))
    case Rejected(kind, message) =>
      if !kind.OtherDbError? then
        Created(rows, HttpError(400, message))
      else
        Created(rows, Unhandled)
  }

  /** The first grievance gets id 1; later ones get the largest id plus one. */
  lemma AllocatedId(rows: seq<Grievance>, body: GrievanceCreate)
    ensures |rows| == 0 ==> CreateGrievance(rows, body, Accepted).response.body.grievanceId == 1
    ensures |rows| > 0 ==>
      var id := CreateGrievance(rows, body, Accepted).response.body.grievanceId;
      (exists i :: 0 <= i < |rows| && rows[i].grievanceId == id - 1)
      && (forall i :: 0 <= i < |rows| ==> rows[i].grievanceId < id)
  {
  }

  /** Creating keeps grievance ids unique and in stored order, whether the
      database accepts or rejects the row. */
  lemma CreateKeepsIdsUnique(rows: seq<Grievance>, body: GrievanceCreate, verdict: Verdict)
    ensures KeysDistinct(rows, GrievanceKey) ==>
      KeysDistinct(CreateGrievance(rows, body, verdict).rows, GrievanceKey)
    ensures KeysIncreasing(rows, GrievanceKey) ==>
      KeysIncreasing(CreateGrievance(rows, body, verdict).rows, GrievanceKey)
  {
    var c := CreateGrievance(rows, body, verdict);
    if verdict.Accepted? {
      AppendNextKey(rows, GrievanceKey, c.response.body);
    }
  }

  /** A successful create is visible to the next default listing when the
      table still fits in one page: the new row is the last one listed. */
  lemma CreatedRowIsListed(rows: seq<Grievance>, body: GrievanceCreate)
    requires |rows| < DefaultLimit
    ensures var c := CreateGrievance(rows, body, Accepted);
      ListGrievances(c.rows, DefaultSkip, DefaultLimit) == Ok(rows + [c.response.body])
  {
    var c := CreateGrievance(rows, body, Accepted);
    FirstPageIsWhole(c.rows, DefaultLimit);
  }
}

=== FILE: http.dfy ===
/** The request/response boundary between the pages and the routers: what a
    router answers, how the HTTP client turns a failed call into the error
    object a page catches, how a page picks the text it alerts, and the
    join-all combinator (`Promise.all`) the pages fetch through. */
module Http {
  import opened Wrappers
  import Js

  /** A router's answer: a JSON body; an error raised with `HTTPException`,
      whose JSON body carries a `detail` string; or an exception the router
      does not catch, which the server answers with a plain-text 500. */
  datatype Response<+T> = Ok(body: T) | HttpError(statusCode: int, detail: string) | Unhandled

  /** The error object a page's `catch` receives: `error.response?.data?.detail`
      (absent when no response arrived or the body had no `detail`) and
      `error.message`. */
  datatype ApiError = ApiError(detail: Option<string>, message: string)

  /** The error the HTTP client rejects with for a non-2xx status. */
  function Rejection(statusCode: int, detail: Option<string>): (e: ApiError)
    ensures e.detail == detail
    ensures Js.Truthy(e.message)
  {
    ApiError(detail, "Request failed with status code " + Js.IntText(statusCode))
  }

  /** The error the HTTP client rejects with when no response arrives. */
  const NetworkError := ApiError(None, "Network Error")

  /** `detail || message || fallback`: the backend's detail wins, then the
      client's message, then the page's fixed text. */
  function ErrorText(e: ApiError, fallback: string): (r: string)
    ensures e.detail.Some? && Js.Truthy(e.detail.value) ==> r == e.detail.value
    ensures (e.detail.None? || !Js.Truthy(e.detail.value)) && Js.Truthy(e.message) ==> r == e.message
    ensures (e.detail.None? || !Js.Truthy(e.detail.value)) && !Js.Truthy(e.message) ==> r == fallback
    ensures Js.Truthy(fallback) ==> Js.Truthy(r)
  {
    var detail := e.detail.GetOr("");
    if Js.Truthy(detail) then detail
    else if Js.Truthy(e.message) then e.message
    else fallback
  }

  /** What a page handler asks of the outside world after updating the
      page: fetch again, or show a blocking notification. */
  datatype Effect = Refetch | Alert(text: string)

  /** The text of the blocking notification, `'❌ ' + message`. */
  function AlertText(message: string): (r: string)
    ensures |r| == |message| + 2 && r[2..] == message
    ensures r[..2] == "\U{274C} "
  {
    "\U{274C} " + message
  }

  /** `Promise.all` over two calls: both values when both succeed, otherwise
      the error of a call that failed.  Which failure wins depends on timing,
      so only "one of them" is promised. */
  function All2<A, B>(a: Result<A, ApiError>, b: Result<B, ApiError>): (r: Result<(A, B), ApiError>)
    ensures r.Success? <==> a.Success? && b.Success?
    ensures r.Success? ==> r.value == (a.value, b.value)
    ensures r.Failure? ==> (a.Failure? && r.error == a.error) || (b.Failure? && r.error == b.error)
  {
    match (a, b)
    case (Success(x), Success(y)) => Success((x, y))
    case (Failure(e), _) => Failure(e)
    case (_, Failure(e)) => Failure(e)
  }

  /** `Promise.all` over three calls. */
  function All3<A, B, C>(a: Result<A, ApiError>, b: Result<B, ApiError>, c: Result<C, ApiError>)
    : (r: Result<(A, B, C), ApiError>)
    ensures r.Success? <==> a.Success? && b.Success? && c.Success?
    ensures r.Success? ==> r.value == (a.value, b.value, c.value)
    ensures r.Failure? ==>
      || (a.Failure? && r.error == a.error)
      || (b.Failure? && r.error == b.error)
      || (c.Failure? && r.error == c.error)
  {
    match All2(a, b)
    case Failure(e) => Failure(e)
    case Success((x, y)) =>
      match c
      case Success(z) => Success((x, y, z))
      case Failure(e) => Failure(e)
  }
}

=== FILE: js.dfy ===
/** The small slice of JavaScript value semantics that the front-end pages
    lean on: truthiness of strings, `parseInt` without a radix, `String(n)`
    for integers, an object used as a lookup table with `||` as its default,
    and what `JSON.stringify` does to a number that is `NaN`. */
module Js {
  import opened Wrappers

  /** A number-or-null value placed in an id field of a request body. */
  datatype JsId = Null | NaN | Num(n: int)

  /** A JavaScript string is truthy exactly when it is not empty. */
  predicate Truthy(s: string) {
    s != ""
  }

  /** The white space and line terminators that `parseInt` skips before a
      number (section 12.2 and 12.3 of ECMA-262: TAB, VT, FF, SP, NBSP,
      ZWNBSP, the Zs category, LF, CR, LS, PS). */
  predicate IsSpace(c: char) {
    || c == '\t' || c == '\n' || c == '\U{000B}' || c == '\U{000C}' || c == '\r'
    || c == ' ' || c == '\U{00A0}' || c == '\U{1680}'
    || ('\U{2000}' <= c <= '\U{200A}')
    || c == '\U{2028}' || c == '\U{2029}' || c == '\U{202F}' || c == '\U{205F}'
    || c == '\U{3000}' || c == '\U{FEFF}'
  }

  /** Drops the leading white space of `s`. */
  function TrimStart(s: string): (r: string)
    ensures |r| <= |s| && r == s[|s| - |r|..]
    ensures r == [] || !IsSpace(r[0])
    ensures forall i :: 0 <= i < |s| - |r| ==> IsSpace(s[i])
  {
    if |s| > 0 && IsSpace(s[0]) then TrimStart(s[1..]) else s
  }

  /** Whether `c` is a digit in base `radix` (10 or 16). */
  predicate IsDigit(c: char, radix: nat) {
    if radix == 16 then
      ('0' <= c <= '9') || ('a' <= c <= 'f') || ('A' <= c <= 'F')
    else
      '0' <= c <= '9'
  }

  function DigitValue(c: char, radix: nat): (d: nat)
    requires IsDigit(c, radix)
    ensures d < (if radix == 16 then 16 else 10)
  {
    if '0' <= c <= '9' then (c - '0') as nat
    else if 'a' <= c <= 'f' then (c - 'a') as nat + 10
    else (c - 'A') as nat + 10
  }

  predicate AllDigits(s: string, radix: nat) {
    forall i :: 0 <= i < |s| ==> IsDigit(s[i], radix)
  }

  /** Length of the longest prefix of `s` made only of digits. */
  function DigitRun(s: string, radix: nat): (k: nat)
    ensures k <= |s|
    ensures AllDigits(s[..k], radix)
    ensures k == |s| || !IsDigit(s[k], radix)
  {
    if |s| > 0 && IsDigit(s[0], radix) then
      var k := 1 + DigitRun(s[1..], radix);
      assert s[..k] == [s[0]] + s[1..][..k - 1];
      k
    else 0
  }

  /** Positional value of a digit string, most significant digit first. */
  function ValueOf(ds: string, radix: nat): nat
    requires AllDigits(ds, radix)
  {
    if |ds| == 0 then 0
    else
      assert AllDigits(ds[..|ds| - 1], radix);
      ValueOf(ds[..|ds| - 1], radix) * radix + DigitValue(ds[|ds| - 1], radix)
  }

  /** The magnitude part of `parseInt`: base 16 after a `0x`/`0X` prefix,
      base 10 otherwise, then the longest run of digits; `None` when that run
      is empty. */
  function ParseMagnitude(u: string): (r: Option<nat>)
    ensures u == "" ==> r == None
  {
    var radix: nat := if |u| >= 2 && u[0] == '0' && (u[1] == 'x' || u[1] == 'X') then 16 else 10;
    var v := if radix == 16 then u[2..] else u;
    var k := DigitRun(v, radix);
    if k == 0 then None else Some(ValueOf(v[..k], radix))
  }

  /** `parseInt(s)` with no radix argument (section 19.2.5 of ECMA-262):
      skip leading white space, take an optional sign, then read the
      magnitude.  `None` stands for `NaN`. */
  function ParseInt(s: string): (r: Option<int>)
    ensures s == "" ==> r == None
  {
    var t := TrimStart(s);
    if |t| > 0 && t[0] == '-' then
      match ParseMagnitude(t[1..])
      case Some(m) => Some(-(m as int))
      case None => None
    else if |t| > 0 && t[0] == '+' then ParseMagnitude(t[1..])
    else ParseMagnitude(t)
  }

  function DigitChar(d: nat): (c: char)
    requires d < 10
    ensures IsDigit(c, 10) && DigitValue(c, 10) == d
  {
    ('0' as int + d) as char
  }

  /** `String(n)` for a natural number: its decimal digits, no leading zero. */
  function NatText(n: nat): (s: string)
    ensures |s| >= 1 && AllDigits(s, 10)
    ensures n > 0 ==> s[0] != '0'
  {
    if n < 10 then [DigitChar(n)] else NatText(n / 10) + [DigitChar(n % 10)]
  }

  /** `String(n)` for an integer, as React renders an id into an option value. */
  function IntText(n: int): (s: string)
    ensures n >= 0 ==> |s| >= 1 && AllDigits(s, 10) && (n > 0 ==> s[0] != '0')
    ensures n < 0 ==> |s| >= 2 && s[0] == '-' && AllDigits(s[1..], 10) && s[1] != '0'
  {
    if n < 0 then "-" + NatText(-n) else NatText(n)
  }

  lemma {:induction false} ValueOfNatText(n: nat)
    ensures ValueOf(NatText(n), 10) == n
  {
    if n >= 10 {
      var s := NatText(n / 10);
      var t := s + [DigitChar(n % 10)];
      assert t[..|t| - 1] == s;
      ValueOfNatText(n / 10);
    }
  }

  lemma {:induction false} DigitRunOfDigits(s: string, radix: nat)
    requires AllDigits(s, radix)
    ensures DigitRun(s, radix) == |s|
  {
    if |s| > 0 {
      DigitRunOfDigits(s[1..], radix);
    }
  }

  lemma ParseMagnitudeOfNatText(m: nat)
    ensures ParseMagnitude(NatText(m)) == Some(m)
  {
    var d := NatText(m);
    assert |d| >= 2 ==> IsDigit(d[1], 10);
    DigitRunOfDigits(d, 10);
    ValueOfNatText(m);
    assert d[..|d|] == d;
  }

  /** `parseInt` reads back every integer that `String` renders, so an id
      chosen in a select box reaches the request body unchanged. */
  lemma ParseIntOfIntText(n: int)
    ensures ParseInt(IntText(n)) == Some(n)
  {
    var m: nat := if n < 0 then -n else n;
    var d := NatText(m);
    ParseMagnitudeOfNatText(m);
    var s := IntText(n);
    NoSpaceFirst(s);
    if n < 0 {
      assert s == "-" + d;
      assert s[1..] == d;
    } else {
      assert s == d;
    }
  }

  /** Text starting with a sign or a digit has no leading white space to trim. */
  lemma NoSpaceFirst(s: string)
    requires |s| > 0 && (s[0] == '-' || IsDigit(s[0], 10))
    ensures TrimStart(s) == s
  {
    assert !IsSpace(s[0]);
  }

  /** `table[key] || default` for an object literal whose values are strings. */
  function LookupOr(table: map<string, string>, key: string, default: string): (r: string)
    ensures key in table && Truthy(table[key]) ==> r == table[key]
    ensures key !in table || !Truthy(table[key]) ==> r == default
  {
    if key in table && Truthy(table[key]) then table[key] else default
  }

  /** The JSON text `JSON.stringify` writes for an id field: `NaN` is not a
      JSON number and is written as `null`. */
  function Wire(v: JsId): (r: Option<int>)
    ensures r.Some? <==> v.Num?
    ensures v.Num? ==> r == Some(v.n)
  {
    match v
    case Num(n) => Some(n)
    case _ => None
  }
}

=== FILE: records.dfy ===
/** The entities the pages list and the routers store, as the backend sends
    them in its JSON bodies.  A record that a create call produces is the
    submitted body plus the id the router allocated, so each stored record
    carries its create body as one field. */
module Records {
  import opened Wrappers

  datatype Citizen = Citizen(citizenId: int, name: string)

  datatype Department = Department(departmentId: int, departmentName: string)

  datatype Service = Service(serviceId: int, serviceName: string, serviceType: string, departmentId: int)

  /** The body of a grievance create call: the columns of the `Grievance`
      table other than its key.  Every column but `Status` may be NULL. */
  datatype GrievanceCreate = GrievanceCreate(
    citizenId: Option<int>,
    departmentId: Option<int>,
    description: Option<string>,
    status: string,
    date: Option<string>)

  datatype Grievance = Grievance(grievanceId: int, body: GrievanceCreate)

  /** The body of a service-request create call. */
  datatype ServiceRequestCreate = ServiceRequestCreate(
    citizenId: int,
    serviceId: int,
    paymentId: Option<int>,
    requestDate: string,
    status: string)

  datatype ServiceRequest = ServiceRequest(requestId: int, body: ServiceRequestCreate)

  function GrievanceKey(g: Grievance): int { g.grievanceId }

  function GrievanceStatus(g: Grievance): string { g.body.status }

  function RequestKey(r: ServiceRequest): int { r.requestId }

  function RequestStatus(r: ServiceRequest): string { r.body.status }
}

=== FILE: scenarios.dfy ===
/** Whole-system properties that join the routers to the pages: what a user
    sees after the backend accepts or rejects a create, and the two forms'
    different treatment of an empty id selection. */
module Scenarios {
  import opened Wrappers
  import opened Records
  import opened Http
  import Js
  import Table
  import StatusViews
  import GrievancesRouter
  import ServiceRequestsRouter
  import GrievancesPage
  import ServicesPage
  import ServiceRequestsPage

  /** Whether the pages are served from the API's own origin.  In the
      default configuration they are not: the client calls port 8000 from a
      page that the CORS settings place at port 3000 or 5173. */
  const DefaultSameOrigin := false

  /** The error the page catches when the router did not answer `Ok`.  An
      `HTTPException` response passes back through the CORS middleware, so
      the page receives it with its `detail`.  The 500 for an uncaught
      exception is written by the server's outermost error handler, outside
      the CORS middleware and without CORS headers, so a cross-origin page
      may not read it and the client reports a network error. */
  function ClientError<T>(response: Response<T>, sameOrigin: bool): (e: ApiError)
    requires !response.Ok?
    ensures response.HttpError? ==> e.detail == Some(response.detail)
    ensures response.Unhandled? ==> e.detail.None?
    ensures response.Unhandled? && !sameOrigin ==> e == NetworkError
  {
    match response
    case HttpError(code, detail) => Rejection(code, Some(detail))
    case Unhandled => if sameOrigin then Rejection(500, None) else NetworkError
  }

  /** When the database rejects a grievance through a trigger or a
      constraint, the user is alerted with the database's own message (when
      it is not empty), wherever the pages are served from; the table is
      unchanged, and the modal stays open on the same draft. */
  lemma GrievanceRejectionReachesUser(rows: seq<Grievance>, body: GrievanceCreate,
                                      kind: Table.DbErrorKind, message: string,
                                      p: GrievancesPage.Page, today: string, sameOrigin: bool)
    requires !kind.OtherDbError? && message != ""
    ensures var c := GrievancesRouter.CreateGrievance(rows, body, Table.Rejected(kind, message));
      && c.rows == rows
      && var r := GrievancesPage.SubmitDone(p, Failure(ClientError(c.response, sameOrigin)), today);
      && r.0 == p
      && r.1 == Alert(AlertText(message))
  {
  }

  /** Any other database error escapes the grievance router, and the user
      sees no database message: "Network Error" under the default
      cross-origin deployment, the client's status text when same-origin. */
  lemma GrievanceUncaughtErrorText(rows: seq<Grievance>, body: GrievanceCreate, message: string,
                                   p: GrievancesPage.Page, today: string, sameOrigin: bool)
    ensures var c := GrievancesRouter.CreateGrievance(rows, body, Table.Rejected(Table.OtherDbError, message));
      && c.rows == rows
      && GrievancesPage.SubmitDone(p, Failure(ClientError(c.response, sameOrigin)), today).1
         == Alert(AlertText(if sameOrigin then "Request failed with status code 500" else "Network Error"))
    ensures var c := GrievancesRouter.CreateGrievance(rows, body, Table.Rejected(Table.OtherDbError, message));
      GrievancesPage.SubmitDone(p, Failure(ClientError(c.response, DefaultSameOrigin)), today).1
        == Alert(AlertText("Network Error"))
  {
    assert Js.IntText(500) == "500";
  }

  /** A rejected service request escapes the router, so the caller never
      sees a `detail`: "Network Error" under the default cross-origin
      deployment, the client's status text when same-origin. */
  lemma ServiceRequestRejectionText(rows: seq<ServiceRequest>, body: ServiceRequestCreate,
                                    kind: Table.DbErrorKind, message: string, sameOrigin: bool)
    ensures var c := ServiceRequestsRouter.CreateServiceRequest(rows, body, Table.Rejected(kind, message));
      ErrorText(ClientError(c.response, sameOrigin), "")
        == if sameOrigin then "Request failed with status code 500" else "Network Error"
  {
    assert Js.IntText(500) == "500";
  }

  /** With no response at all the alert shows the client's "Network Error". */
  lemma NetworkFailureText(p: ServicesPage.Page)
    ensures ServicesPage.SubmitDone(p, Failure(NetworkError)).1
      == Alert(AlertText("Network Error"))
  {
  }

  /** The two forms coerce an empty selection differently — null in the
      grievance form, NaN in the service form — but `JSON.stringify` writes
      NaN as null, so both request bodies carry `null`. */
  lemma EmptySelectionOnTheWire(g: GrievancesPage.Draft, s: ServicesPage.Draft)
    ensures GrievancesPage.ToPayload(g.(departmentId := "")).departmentId == Js.Null
    ensures ServicesPage.ToPayload(s.(departmentId := "")).departmentId == Js.NaN
    ensures Js.Wire(GrievancesPage.ToPayload(g.(departmentId := "")).departmentId) == None
    ensures Js.Wire(ServicesPage.ToPayload(s.(departmentId := "")).departmentId) == None
  {
  }

  /** Create, then the refetch the page triggers: when the database accepts
      the grievance and every list call succeeds, the page under "All" shows
      the table with the new grievance last, and the modal is closed on a
      blank draft. */
  lemma {:induction false} CreatedGrievanceIsShown(rows: seq<Grievance>, body: GrievanceCreate,
                                                   p: GrievancesPage.Page, today: string,
                                                   ds: seq<Department>, cs: seq<Citizen>)
    requires |rows| < GrievancesRouter.DefaultLimit
    requires p.filter == StatusViews.AllLabel
    ensures
      var c := GrievancesRouter.CreateGrievance(rows, body, Table.Accepted);
      var submitted := GrievancesPage.SubmitDone(p, Success(c.response.body), today);
      var listed := GrievancesRouter.ListGrievances(c.rows, GrievancesRouter.DefaultSkip, GrievancesRouter.DefaultLimit);
      var q := GrievancesPage.FetchDone(submitted.0, Success(listed.body), Success(ds), Success(cs));
      && submitted.1 == Refetch
      && GrievancesPage.Shown(q) == rows + [c.response.body]
      && !q.showModal && q.draft == GrievancesPage.BlankDraft(today)
  {
    GrievancesRouter.CreatedRowIsListed(rows, body);
  }

  /** The page always fetches with the client's default `skip=0&limit=100`.
      Once the table holds 100 grievances, the refetch after an accepted
      create returns the first 100 stored rows: the new grievance is not
      shown, and the "All" count stays at 100. */
  lemma {:induction false} CreatedGrievanceHiddenPastLimit(rows: seq<Grievance>, body: GrievanceCreate,
                                                          p: GrievancesPage.Page, today: string,
                                                          ds: seq<Department>, cs: seq<Citizen>)
    requires |rows| >= GrievancesRouter.DefaultLimit
    requires p.filter == StatusViews.AllLabel
    ensures
      var c := GrievancesRouter.CreateGrievance(rows, body, Table.Accepted);
      var submitted := GrievancesPage.SubmitDone(p, Success(c.response.body), today);
      var listed := GrievancesRouter.ListGrievances(c.rows, GrievancesRouter.DefaultSkip, GrievancesRouter.DefaultLimit);
      var q := GrievancesPage.FetchDone(submitted.0, Success(listed.body), Success(ds), Success(cs));
      && GrievancesPage.Shown(q) == rows[..GrievancesRouter.DefaultLimit]
      && c.response.body !in GrievancesPage.Shown(q)
      && GrievancesPage.CountStatuses(q.grievances).all == GrievancesRouter.DefaultLimit
  {
    var c := GrievancesRouter.CreateGrievance(rows, body, Table.Accepted);
    var listed := GrievancesRouter.ListGrievances(c.rows, GrievancesRouter.DefaultSkip, GrievancesRouter.DefaultLimit);
    assert listed.body == rows[..GrievancesRouter.DefaultLimit];
    forall i | 0 <= i < |listed.body|
      ensures listed.body[i] != c.response.body
    {
      assert listed.body[i].grievanceId < c.response.body.grievanceId;
    }
  }

  /** The Service Requests page fetches with the same default, so once the
      table holds 100 requests a newly created one never appears there and
      the "All" count stays at 100. */
  lemma {:induction false} CreatedRequestHiddenPastLimit(rows: seq<ServiceRequest>, body: ServiceRequestCreate,
                                                        p: ServiceRequestsPage.Page)
    requires |rows| >= ServiceRequestsRouter.DefaultLimit
    requires p.filter == StatusViews.AllLabel
    ensures
      var c := ServiceRequestsRouter.CreateServiceRequest(rows, body, Table.Accepted);
      var listed := ServiceRequestsRouter.ListServiceRequests(c.rows, ServiceRequestsRouter.DefaultSkip,
                                                              ServiceRequestsRouter.DefaultLimit);
      var q := ServiceRequestsPage.FetchDone(p, Success(listed.body));
      && ServiceRequestsPage.Shown(q) == rows[..ServiceRequestsRouter.DefaultLimit]
      && c.response.body !in ServiceRequestsPage.Shown(q)
      && ServiceRequestsPage.CountStatuses(q.requests).all == ServiceRequestsRouter.DefaultLimit
  {
    var c := ServiceRequestsRouter.CreateServiceRequest(rows, body, Table.Accepted);
    var listed := ServiceRequestsRouter.ListServiceRequests(c.rows, ServiceRequestsRouter.DefaultSkip,
                                                            ServiceRequestsRouter.DefaultLimit);
    assert listed.body == rows[..ServiceRequestsRouter.DefaultLimit];
    forall i | 0 <= i < |listed.body|
      ensures listed.body[i] != c.response.body
    {
      assert listed.body[i].requestId < c.response.body.requestId;
    }
  }

  /** The example of three grievances with statuses Open, Open, Resolved:
      the Open filter shows the two Open ones in their original order, and
      the counts are All 3, Open 2, In Progress 0, Resolved 1. */
  lemma ThreeGrievancesExample(a: GrievanceCreate, b: GrievanceCreate, c: GrievanceCreate)
    requires a.status == "Open" && b.status == "Open" && c.status == "Resolved"
    ensures var gs := [Grievance(1, a), Grievance(2, b), Grievance(3, c)];
      && GrievancesPage.FilteredGrievances(gs, "Open") == [Grievance(1, a), Grievance(2, b)]
      && GrievancesPage.CountStatuses(gs) == GrievancesPage.StatusCounts(3, 2, 0, 1)
  {
    var gs := [Grievance(1, a), Grievance(2, b), Grievance(3, c)];
    assert gs[1..] == [Grievance(2, b), Grievance(3, c)];
    assert gs[1..][1..] == [Grievance(3, c)];
    assert gs[1..][1..][1..] == [];
    assert StatusViews.Select(gs[1..][1..], GrievanceStatus, "Open") == [];
    assert StatusViews.Select(gs[1..], GrievanceStatus, "Open") == [Grievance(2, b)];
  }
}

=== FILE: service_requests_page.dfy ===
/** The Service Requests page: the fetched requests, the loading flag and the
    active status filter.  It creates nothing. */
module ServiceRequestsPage {
  import opened Wrappers
  import opened Records
  import opened Http
  import Js
  import StatusViews

  /** The statuses the page knows, in the order of its filter buttons. */
  const Completed := "Completed"
  const Pending := "Pending"
  const Processing := "Processing"
  const Rejected := "Rejected"
  const Statuses := [Completed, Pending, Processing, Rejected]

  datatype Page = Page(requests: seq<ServiceRequest>, loading: bool, filter: string)

  function Initial(): (p: Page)
    ensures p.requests == [] && p.loading && p.filter == StatusViews.AllLabel
  {
    Page([], true, StatusViews.AllLabel)
  }

  /** `fetchRequests` once its call settles: the list is replaced on success
      and kept on failure; the spinner goes away either way. */
  function FetchDone(p: Page, fetched: Result<seq<ServiceRequest>, ApiError>): (q: Page)
    ensures !q.loading && q.filter == p.filter
    ensures fetched.Success? ==> q.requests == fetched.value
    ensures fetched.Failure? ==> q.requests == p.requests
  {
    match fetched
    case Success(rs) => p.(requests := rs, loading := false)
    case Failure(_) => p.(loading := false)
  }

  function SetFilter(p: Page, filter: string): (q: Page)
    ensures q.filter == filter && q.(filter := p.filter) == p
  {
    p.(filter := filter)
  }

  /** The badge class for a status.  "Processing" is mapped to the same
      class as the fallback, so it looks like an unknown status. */
  function StatusBadge(status: string): (r: string)
    ensures status == Completed ==> r == "badge-success"
    ensures status == Pending ==> r == "badge-warning"
    ensures status == Rejected ==> r == "badge-danger"
    ensures status == Processing ==> r == "badge-info"
    ensures status !in Statuses ==> r == "badge-info"
  {
    Js.LookupOr(
      map[Completed := "badge-success", Pending := "badge-warning",
          Processing := "badge-info", Rejected := "badge-danger"],
      status, "badge-info")
  }

  /** The neutral badge marks exactly the statuses that are neither
      Completed, Pending nor Rejected. */
  lemma NeutralBadgeIff(status: string)
    ensures StatusBadge(status) == "badge-info" <==> status !in [Completed, Pending, Rejected]
  {
  }

  /** The requests listed under the active filter. */
  function FilteredRequests(rs: seq<ServiceRequest>, filter: string): (r: seq<ServiceRequest>)
    ensures filter == StatusViews.AllLabel ==> r == rs
    ensures filter != StatusViews.AllLabel ==> forall i :: 0 <= i < |r| ==> r[i].body.status == filter
    ensures filter != StatusViews.AllLabel ==> forall q :: q in rs && q.body.status == filter ==> q in r
    ensures filter != StatusViews.AllLabel ==>
      forall q :: multiset(r)[q] == if q.body.status == filter then multiset(rs)[q] else 0
  {
    StatusViews.FilteredIsOrderedSelection(rs, RequestStatus, filter);
    StatusViews.Filtered(rs, RequestStatus, filter)
  }

  function Shown(p: Page): seq<ServiceRequest> {
    FilteredRequests(p.requests, p.filter)
  }

  /** "All" shows the fetched list itself; any other filter an
      order-preserving subsequence holding exactly the requests whose status
      equals the filter, each as often as in the list; filtering again
      changes nothing. */
  lemma FilterProperties(rs: seq<ServiceRequest>, filter: string)
    ensures filter == StatusViews.AllLabel ==> FilteredRequests(rs, filter) == rs
    ensures filter != StatusViews.AllLabel ==> StatusViews.Embeds(FilteredRequests(rs, filter), rs)
    ensures filter != StatusViews.AllLabel ==>
      forall i :: 0 <= i < |FilteredRequests(rs, filter)| ==> FilteredRequests(rs, filter)[i].body.status == filter
    ensures forall i :: 0 <= i < |rs| && rs[i].body.status == filter ==> rs[i] in FilteredRequests(rs, filter)
    ensures filter != StatusViews.AllLabel ==> forall q ::
      multiset(FilteredRequests(rs, filter))[q] == if q.body.status == filter then multiset(rs)[q] else 0
    ensures FilteredRequests(FilteredRequests(rs, filter), filter) == FilteredRequests(rs, filter)
  {
    StatusViews.FilteredIsOrderedSelection(rs, RequestStatus, filter);
    StatusViews.FilteredIdempotent(rs, RequestStatus, filter);
  }

  datatype StatusCounts = StatusCounts(all: nat, completed: nat, pending: nat, processing: nat, rejected: nat)

  /** The counts on the filter buttons: each named count is the length of the
      list its button shows; the four add up to "All" exactly when every
      request has one of the four statuses. */
  function CountStatuses(rs: seq<ServiceRequest>): (c: StatusCounts)
    ensures c.all == |rs| == |FilteredRequests(rs, StatusViews.AllLabel)|
    ensures c.completed == |FilteredRequests(rs, Completed)|
    ensures c.pending == |FilteredRequests(rs, Pending)|
    ensures c.processing == |FilteredRequests(rs, Processing)|
    ensures c.rejected == |FilteredRequests(rs, Rejected)|
    ensures c.completed + c.pending + c.processing + c.rejected <= c.all
    ensures c.completed + c.pending + c.processing + c.rejected == c.all <==>
      forall i :: 0 <= i < |rs| ==> rs[i].body.status in Statuses
  {
    assert StatusViews.Distinct(Statuses);
    var completed := StatusViews.Select(rs, RequestStatus, Completed);
    var pending := StatusViews.Select(rs, RequestStatus, Pending);
    var processing := StatusViews.Select(rs, RequestStatus, Processing);
    var rejected := StatusViews.Select(rs, RequestStatus, Rejected);
    assert StatusViews.SumCounts(rs, RequestStatus, [Rejected]) == |rejected|;
    assert StatusViews.SumCounts(rs, RequestStatus, [Processing, Rejected]) == |processing| + |rejected|;
    assert StatusViews.SumCounts(rs, RequestStatus, [Pending, Processing, Rejected])
      == |pending| + |processing| + |rejected|;
    assert StatusViews.SumCounts(rs, RequestStatus, Statuses)
      == |completed| + |pending| + |processing| + |rejected|;
    StatusViews.TalliesBound(rs, RequestStatus, Statuses);
    StatusCounts(|rs|, |completed|, |pending|, |processing|, |rejected|)
  }

  /** The Payment ID cell: the id when it is truthy, `N/A` when it is null or
      0. */
  function PaymentCell(paymentId: Option<int>): (r: string)
    ensures paymentId.Some? && paymentId.value != 0 ==> r == Js.IntText(paymentId.value)
  {
    match paymentId
    case Some(n) => if n != 0 then Js.IntText(n) else "N/A"
    case None => "N/A"
  }

  /** The cell reads `N/A` exactly when there is no usable payment id: no id
      renders as that text. */
  lemma PaymentCellIsNAIff(paymentId: Option<int>)
    ensures PaymentCell(paymentId) == "N/A" <==> paymentId.None? || paymentId.value == 0
  {
    if paymentId.Some? && paymentId.value != 0 {
      var n := paymentId.value;
      var t := Js.IntText(n);
      var d := Js.NatText(if n < 0 then -n else n);
      assert Js.IsDigit(d[0], 10);
      assert t[0] == '-' || Js.IsDigit(t[0], 10);
      assert "N/A"[0] == 'N';
    }
  }
}

=== FILE: service_requests_router.dfy ===
/** The `/service-requests` router: list with `skip`/`limit`, and create with
    a router-allocated id.  Unlike the grievance router it catches no
    database error: a rejected insert is never committed and the exception
    escapes the router. */
module ServiceRequestsRouter {
  import opened Wrappers
  import opened Records
  import opened Table
  import opened Http

  const DefaultSkip: int := 0
  const DefaultLimit: int := 100

  /** `GET /service-requests?skip&limit`; an OFFSET or LIMIT that is negative or
      above 2^64 - 1 is refused by MySQL and surfaces as an uncaught
      exception. */
  function ListServiceRequests(rows: seq<ServiceRequest>, skip: int, limit: int): (r: Response<seq<ServiceRequest>>)
    ensures r.Ok? <==> IsLimitLiteral(skip) && IsLimitLiteral(limit)
    ensures !r.Ok? ==> r.Unhandled?
    ensures r.Ok? ==> |r.body| <= limit
    ensures r.Ok? ==> forall i :: 0 <= i < |r.body| ==> skip + i < |rows| && r.body[i] == rows[skip + i]
    ensures r.Ok? && skip + limit <= |rows| ==> |r.body| == limit
    ensures r.Ok? && skip <= |rows| <= skip + limit ==> skip + |r.body| == |rows|
  {
    if !IsLimitLiteral(skip) || !IsLimitLiteral(limit) then Unhandled
    else Ok(Page(rows, skip, limit))
  }

  datatype Created = Created(rows: seq<ServiceRequest>, response: Response<ServiceRequest>)

  /** `POST /service-requests`: the id is `(max or 0) + 1`; any database
      rejection escapes the router uncaught and leaves the table as it was. */
  function CreateServiceRequest(rows: seq<ServiceRequest>, body: ServiceRequestCreate, verdict: Verdict)
    : (c: Created)
    ensures c.response.Ok? <==> verdict.Accepted?
    ensures c.response.Ok? ==>
      && c.rows == rows + [c.response.body]
      && c.response.body.body == body
      && (forall i :: 0 <= i < |rows| ==> rows[i].requestId < c.response.body.requestId)
    ensures !c.response.Ok? ==> c.rows == rows && c.response == Unhandled
  {
    var row := ServiceRequest(NextKey(rows, RequestKey), body);
    match verdict
    case Accepted => Created(rows + [row], Ok(row))
    case Rejected(_, _) => Created(rows, Unhandled)
  }

  /** The first request gets id 1; later ones get the largest id plus one. */
  lemma AllocatedId(rows: seq<ServiceRequest>, body: ServiceRequestCreate)
    ensures |rows| == 0 ==> CreateServiceRequest(rows, body, Accepted).response.body.requestId == 1
    ensures |rows| > 0 ==>
      var id := CreateServiceRequest(rows, body, Accepted).response.body.requestId;
      (exists i :: 0 <= i < |rows| && rows[i].requestId == id - 1)
      && (forall i :: 0 <= i < |rows| ==> rows[i].requestId < id)
  {
  }

  /** After any create, request ids are still pairwise distinct and in
      stored order if they were before. */
  lemma CreateKeepsIdsUnique(rows: seq<ServiceRequest>, body: ServiceRequestCreate, verdict: Verdict)
    ensures KeysDistinct(rows, RequestKey) ==>
      KeysDistinct(CreateServiceRequest(rows, body, verdict).rows, RequestKey)
    ensures KeysIncreasing(rows, RequestKey) ==>
      KeysIncreasing(CreateServiceRequest(rows, body, verdict).rows, RequestKey)
  {
    var c := CreateServiceRequest(rows, body, verdict);
    if verdict.Accepted? {
      AppendNextKey(rows, RequestKey, c.response.body);
    }
  }

  /** A sequence of accepted creates starting from an empty table yields ids
      1, 2, 3, ... in stored order. */
  lemma {:induction false} SuccessiveCreatesNumberFromOne(bodies: seq<ServiceRequestCreate>)
    ensures var rows := CreateAll([], bodies);
      |rows| == |bodies| && forall i :: 0 <= i < |rows| ==> rows[i].requestId == i + 1
  {
    if |bodies| > 0 {
      var init := bodies[..|bodies| - 1];
      SuccessiveCreatesNumberFromOne(init);
      var rows := CreateAll([], init);
      var all := CreateAll([], bodies);
      assert all == CreateServiceRequest(rows, bodies[|bodies| - 1], Accepted).rows;
      if |rows| > 0 {
        assert rows[|rows| - 1].requestId == |rows|;
      }
    }
  }

  /** The table after creating `bodies` in order, every insert accepted. */
  function CreateAll(rows: seq<ServiceRequest>, bodies: seq<ServiceRequestCreate>): seq<ServiceRequest>
  {
    if |bodies| == 0 then rows
    else CreateServiceRequest(CreateAll(rows, bodies[..|bodies| - 1]), bodies[|bodies| - 1], Accepted).rows
  }
}

=== FILE: services_page.dfy ===
/** The Services page: the fetched services and departments, the loading
    flag, and the "Add Service" modal with its draft. */
module ServicesPage {
  import opened Wrappers
  import opened Records
  import opened Http
  import Js

  const Unknown := "Unknown"
  const Fallback := "An unexpected error occurred while creating the service."

  datatype Draft = Draft(serviceName: string, serviceType: string, departmentId: string)

  datatype Payload = Payload(serviceName: string, serviceType: string, departmentId: Js.JsId)

  datatype Page = Page(
    services: seq<Service>,
    departments: seq<Department>,
    loading: bool,
    showModal: bool,
    draft: Draft)


  const BlankDraft := Draft("", "", "")

  function Initial(): (p: Page)
    ensures p.services == [] && p.departments == [] && p.loading && !p.showModal
    ensures p.draft == BlankDraft
  {
    Page([], [], true, false, BlankDraft)
  }

  // ---------------------------------------------------------------------
  // Derived views

  /** The name of the first department with id `id`, or "Unknown" when none
      has it; never fails. */
  function DepartmentName(departments: seq<Department>, id: int): (r: string)
    ensures (forall i :: 0 <= i < |departments| ==> departments[i].departmentId != id) ==> r == Unknown
    ensures forall i :: (0 <= i < |departments| && departments[i].departmentId == id &&
                         (forall j :: 0 <= j < i ==> departments[j].departmentId != id)) ==>
                        r == departments[i].departmentName
  {
    if |departments| == 0 then Unknown
    else if departments[0].departmentId == id then departments[0].departmentName
    else
      var r := DepartmentName(departments[1..], id);
      assert forall i :: 1 <= i < |departments| ==> departments[i] == departments[1..][i - 1];
      r
  }

  /** Departments fetched later in the list never change the name of an id
      already resolved by earlier ones. */
  lemma {:induction false} DepartmentNameOfPrefix(ds: seq<Department>, more: seq<Department>, id: int)
    requires exists i :: 0 <= i < |ds| && ds[i].departmentId == id
    ensures DepartmentName(ds + more, id) == DepartmentName(ds, id)
  {
    if ds[0].departmentId != id {
      assert (ds + more)[1..] == ds[1..] + more;
      var i :| 0 <= i < |ds| && ds[i].departmentId == id;
      assert ds[1..][i - 1].departmentId == id;
      DepartmentNameOfPrefix(ds[1..], more, id);
    }
  }

  /** The colour classes of a service-type chip; unknown types are grey. */
  function ServiceTypeColor(serviceType: string): (r: string)
    ensures serviceType == "Certificate" ==> r == "bg-blue-100 text-blue-800"
    ensures serviceType == "Utility" ==> r == "bg-green-100 text-green-800"
    ensures serviceType == "Grievance" ==> r == "bg-orange-100 text-orange-800"
    ensures serviceType !in ["Certificate", "Utility", "Grievance"] ==> r == "bg-gray-100 text-gray-800"
  {
    Js.LookupOr(
      map["Certificate" := "bg-blue-100 text-blue-800",
          "Utility" := "bg-green-100 text-green-800",
          "Grievance" := "bg-orange-100 text-orange-800"],
      serviceType, "bg-gray-100 text-gray-800")
  }

  // ---------------------------------------------------------------------
  // Fetch

  /** `fetchData` after its two calls settle: both collections are replaced
      together or neither is; the spinner goes away either way. */
  function FetchDone(p: Page, services: Result<seq<Service>, ApiError>,
                     departments: Result<seq<Department>, ApiError>): (q: Page)
    ensures !q.loading && q.showModal == p.showModal && q.draft == p.draft
    ensures services.Success? && departments.Success? ==>
      q.services == services.value && q.departments == departments.value
    ensures !(services.Success? && departments.Success?) ==>
      q.services == p.services && q.departments == p.departments
  {
    match All2(services, departments)
    case Success((ss, ds)) => p.(services := ss, departments := ds, loading := false)
    case Failure(_) => p.(loading := false)
  }

  // ---------------------------------------------------------------------
  // The create form

  /** The "Add Service" button: shows the modal, keeps the draft. */
  function OpenModal(p: Page): (q: Page)
    ensures q.showModal && q.(showModal := p.showModal) == p
  {
    p.(showModal := true)
  }

  datatype Field = NameField | TypeField | DepartmentField

  function FieldText(d: Draft, f: Field): string {
    match f
    case NameField => d.serviceName
    case TypeField => d.serviceType
    case DepartmentField => d.departmentId
  }

  /** A control's `onChange`: only the edited field changes. */
  function Edit(p: Page, f: Field, text: string): (q: Page)
    ensures FieldText(q.draft, f) == text
    ensures forall g :: g != f ==> FieldText(q.draft, g) == FieldText(p.draft, g)
    ensures q.(draft := p.draft) == p
  {
    var d := p.draft;
    p.(draft := match f
      case NameField => d.(serviceName := text)
      case TypeField => d.(serviceType := text)
      case DepartmentField => d.(departmentId := text))
  }

  /** The department id of the body: `parseInt` of the selection, with no
      special case for the empty placeholder, which therefore gives NaN. */
  function CoerceId(text: string): (v: Js.JsId)
    ensures v != Js.Null
    ensures text == "" ==> v == Js.NaN
    ensures v.Num? <==> Js.ParseInt(text).Some?
    ensures v.Num? ==> Js.ParseInt(text) == Some(v.n)
  {
    match Js.ParseInt(text)
    case Some(n) => Js.Num(n)
    case None => Js.NaN
  }

  /** The body `handleSubmit` posts: name and type as typed, the department
      id coerced. */
  function ToPayload(d: Draft): (b: Payload)
    ensures b.serviceName == d.serviceName && b.serviceType == d.serviceType
    ensures b.departmentId == CoerceId(d.departmentId)
  {
    Payload(d.serviceName, d.serviceType, CoerceId(d.departmentId))
  }

  /** `handleSubmit` once the create call settles: success closes the modal,
      blanks the draft and refetches; failure leaves the page as it was and
      alerts the backend's detail, else the client's message, else the fixed
      text. */
  function SubmitDone(p: Page, created: Result<Service, ApiError>): (r: (Page, Effect))
    ensures created.Success? ==> !r.0.showModal && r.0.draft == BlankDraft && r.1 == Refetch
    ensures created.Success? ==> r.0.(showModal := p.showModal, draft := p.draft) == p
    ensures created.Failure? ==> r.0 == p
    ensures created.Failure? ==> r.1 == Alert(AlertText(ErrorText(created.error, Fallback)))
  {
    match created
    case Success(_) => (p.(showModal := false, draft := BlankDraft), Refetch)
    case Failure(e) => (p, Alert(AlertText(ErrorText(e, Fallback))))
  }

  /** The Cancel button: closes the modal and blanks the draft. */
  function Cancel(p: Page): (q: Page)
    ensures !q.showModal && q.draft == BlankDraft
    ensures q.(showModal := p.showModal, draft := p.draft) == p
  {
    p.(showModal := false, draft := BlankDraft)
  }

  /** A department chosen in the select box reaches the body as its id. */
  lemma SelectedDepartmentReachesTheBody(d: Draft, department: int)
    ensures ToPayload(d.(departmentId := Js.IntText(department))).departmentId == Js.Num(department)
  {
    Js.ParseIntOfIntText(department);
  }
}

=== FILE: status_views.dfy ===
/** The derived views that both list pages compute on every render from the
    records they fetched: the list narrowed by the active status filter
    (with an "All" bucket that keeps everything) and the per-status tallies
    shown on the filter buttons.  Records are of any type `T`; `status`
    reads a record's `Status` field. */
module StatusViews {

  /** The filter label that selects every record. */
  const AllLabel := "All"

  /** `sub` is obtained from `xs` by deleting elements: same elements, same
      relative order. */
  ghost predicate Embeds<T>(sub: seq<T>, xs: seq<T>)
    decreases |xs|
  {
    if |sub| == 0 then true
    else if |xs| == 0 then false
    else (sub[0] == xs[0] && Embeds(sub[1..], xs[1..])) || Embeds(sub, xs[1..])
  }

  /** `xs.filter(x => x.Status === wanted)`. */
  function Select<T(==,!new)>(xs: seq<T>, status: T -> string, wanted: string): (r: seq<T>)
    ensures |r| <= |xs|
    ensures forall i :: 0 <= i < |r| ==> status(r[i]) == wanted
    ensures forall x :: multiset(r)[x] == if status(x) == wanted then multiset(xs)[x] else 0
  {
    if |xs| == 0 then []
    else
      assert xs == [xs[0]] + xs[1..];
      var rest := Select(xs[1..], status, wanted);
      if status(xs[0]) == wanted then [xs[0]] + rest else rest
  }

  /** The records whose status is none of `labels`. */
  function Unlabelled<T(==,!new)>(xs: seq<T>, status: T -> string, labels: seq<string>): (r: seq<T>)
    ensures |r| <= |xs|
    ensures forall i :: 0 <= i < |r| ==> status(r[i]) !in labels
    ensures forall x :: multiset(r)[x] == if status(x) !in labels then multiset(xs)[x] else 0
  {
    if |xs| == 0 then []
    else
      assert xs == [xs[0]] + xs[1..];
      var rest := Unlabelled(xs[1..], status, labels);
      if status(xs[0]) !in labels then [xs[0]] + rest else rest
  }

  /** The list a page shows for the active filter. */
  function Filtered<T(==,!new)>(xs: seq<T>, status: T -> string, filter: string): (r: seq<T>)
    ensures filter == AllLabel ==> r == xs
    ensures filter != AllLabel ==> forall i :: 0 <= i < |r| ==> status(r[i]) == filter
    ensures filter != AllLabel ==>
      forall x :: multiset(r)[x] == if status(x) == filter then multiset(xs)[x] else 0
  {
    if filter == AllLabel then xs else Select(xs, status, filter)
  }

  /** The number of records carrying each wanted, summed over `labels`. */
  function SumCounts<T(==,!new)>(xs: seq<T>, status: T -> string, labels: seq<string>): nat
  {
    if |labels| == 0 then 0
    else |Select(xs, status, labels[0])| + SumCounts(xs, status, labels[1..])
  }

  predicate Distinct(labels: seq<string>) {
    forall i, j :: 0 <= i < j < |labels| ==> labels[i] != labels[j]
  }

  /** Every record's status is one of `labels`. */
  predicate AllLabelled<T>(xs: seq<T>, status: T -> string, labels: seq<string>) {
    forall i :: 0 <= i < |xs| ==> status(xs[i]) in labels
  }

  // ---------------------------------------------------------------------
  // Filtering keeps order, keeps every match, and is idempotent.

  /** The filtered list is an order-preserving subsequence of the input. */
  lemma {:induction false} SelectEmbeds<T(!new)>(xs: seq<T>, status: T -> string, wanted: string)
    ensures Embeds(Select(xs, status, wanted), xs)
  {
    if |xs| > 0 {
      SelectEmbeds(xs[1..], status, wanted);
      var r := Select(xs, status, wanted);
      if status(xs[0]) == wanted {
        assert r[0] == xs[0] && r[1..] == Select(xs[1..], status, wanted);
      }
    }
  }

  /** Selecting from a list whose records all carry `wanted` returns it whole. */
  lemma {:induction false} SelectAllMatching<T(!new)>(xs: seq<T>, status: T -> string, wanted: string)
    requires forall i :: 0 <= i < |xs| ==> status(xs[i]) == wanted
    ensures Select(xs, status, wanted) == xs
  {
    if |xs| > 0 {
      SelectAllMatching(xs[1..], status, wanted);
      assert xs == [xs[0]] + xs[1..];
    }
  }

  /** Selection returns the whole list exactly when every record matches. */
  lemma SelectIsWholeIff<T(!new)>(xs: seq<T>, status: T -> string, wanted: string)
    ensures Select(xs, status, wanted) == xs <==> forall i :: 0 <= i < |xs| ==> status(xs[i]) == wanted
  {
    if forall i :: 0 <= i < |xs| ==> status(xs[i]) == wanted {
      SelectAllMatching(xs, status, wanted);
    }
  }

  lemma SelectIdempotent<T(!new)>(xs: seq<T>, status: T -> string, wanted: string)
    ensures Select(Select(xs, status, wanted), status, wanted) == Select(xs, status, wanted)
  {
    SelectAllMatching(Select(xs, status, wanted), status, wanted);
  }

  /** Filtering commutes with concatenation: the view of a list is the views
      of its parts, in order. */
  lemma {:induction false} SelectAppend<T(!new)>(xs: seq<T>, ys: seq<T>, status: T -> string, wanted: string)
    ensures Select(xs + ys, status, wanted) == Select(xs, status, wanted) + Select(ys, status, wanted)
  {
    if |xs| > 0 {
      assert (xs + ys)[0] == xs[0];
      assert (xs + ys)[1..] == xs[1..] + ys;
      SelectAppend(xs[1..], ys, status, wanted);
    } else {
      assert xs + ys == ys;
    }
  }

  /** With "All" the page shows exactly what it fetched; with any other wanted
      it shows an order-preserving subsequence of exactly the matching
      records, and every matching record appears in it. */
  lemma FilteredIsOrderedSelection<T(!new)>(xs: seq<T>, status: T -> string, filter: string)
    ensures filter == AllLabel ==> Filtered(xs, status, filter) == xs
    ensures filter != AllLabel ==> Embeds(Filtered(xs, status, filter), xs)
    ensures filter != AllLabel ==>
      forall i :: 0 <= i < |xs| && status(xs[i]) == filter ==> xs[i] in Filtered(xs, status, filter)
  {
    if filter != AllLabel {
      SelectEmbeds(xs, status, filter);
      var r := Filtered(xs, status, filter);
      forall i | 0 <= i < |xs| && status(xs[i]) == filter
        ensures xs[i] in r
      {
        assert xs[i] in multiset(xs);
        assert multiset(r)[xs[i]] > 0;
      }
    }
  }

  /** Applying the same filter twice shows the same list as applying it once. */
  lemma FilteredIdempotent<T(!new)>(xs: seq<T>, status: T -> string, filter: string)
    ensures Filtered(Filtered(xs, status, filter), status, filter) == Filtered(xs, status, filter)
  {
    if filter != AllLabel {
      SelectIdempotent(xs, status, filter);
    }
  }

  // ---------------------------------------------------------------------
  // Tallies: the named buckets partition the records they cover.

  /** Peeling the first record off the list changes the summed tallies by one
      exactly when its status is among the (distinct) labels. */
  lemma {:induction false} SumCountsStep<T(!new)>(xs: seq<T>, status: T -> string, labels: seq<string>)
    requires |xs| > 0 && Distinct(labels)
    ensures SumCounts(xs, status, labels)
      == (if status(xs[0]) in labels then 1 else 0) + SumCounts(xs[1..], status, labels)
  {
    if |labels| > 0 {
      assert Distinct(labels[1..]);
      SumCountsStep(xs, status, labels[1..]);
      assert status(xs[0]) in labels <==> status(xs[0]) == labels[0] || status(xs[0]) in labels[1..] by {
        assert labels == [labels[0]] + labels[1..];
      }
      forall j | 0 <= j < |labels[1..]|
        ensures labels[1..][j] != labels[0]
      {
        assert labels[1..][j] == labels[j + 1];
      }
    }
  }

  /** The labelled tallies plus the records outside every wanted account for
      each record exactly once. */
  lemma {:induction false} TalliesPartition<T(!new)>(xs: seq<T>, status: T -> string, labels: seq<string>)
    requires Distinct(labels)
    ensures SumCounts(xs, status, labels) + |Unlabelled(xs, status, labels)| == |xs|
  {
    if |xs| == 0 {
      ZeroCounts(xs, status, labels);
    } else {
      SumCountsStep(xs, status, labels);
      TalliesPartition(xs[1..], status, labels);
    }
  }

  lemma {:induction false} ZeroCounts<T(!new)>(xs: seq<T>, status: T -> string, labels: seq<string>)
    requires |xs| == 0
    ensures SumCounts(xs, status, labels) == 0
  {
    if |labels| > 0 {
      ZeroCounts(xs, status, labels[1..]);
    }
  }

  /** The labelled tallies never exceed the "All" count, and reach it exactly
      when every record carries one of the labels. */
  lemma TalliesBound<T(!new)>(xs: seq<T>, status: T -> string, labels: seq<string>)
    requires Distinct(labels)
    ensures SumCounts(xs, status, labels) <= |xs|
    ensures SumCounts(xs, status, labels) == |xs| <==> AllLabelled(xs, status, labels)
  {
    TalliesPartition(xs, status, labels);
    var u := Unlabelled(xs, status, labels);
    if !AllLabelled(xs, status, labels) {
      var i :| 0 <= i < |xs| && status(xs[i]) !in labels;
      assert xs[i] in multiset(xs);
      assert multiset(u)[xs[i]] > 0;
      assert |u| > 0;
    } else {
      UnlabelledOfLabelled(xs, status, labels);
    }
  }

  lemma {:induction false} UnlabelledOfLabelled<T(!new)>(xs: seq<T>, status: T -> string, labels: seq<string>)
    requires AllLabelled(xs, status, labels)
    ensures Unlabelled(xs, status, labels) == []
  {
    if |xs| > 0 {
      assert status(xs[0]) in labels;
      UnlabelledOfLabelled(xs[1..], status, labels);
    }
  }
}

=== FILE: table.dfy ===
/** A database table as the routers use it: an insertion-ordered sequence of
    rows, each with an integer primary key read by `key`.  This module holds
    what both routers share: `SELECT MAX(key)`, the `(max or 0) + 1` key
    allocation, and `OFFSET skip LIMIT limit` paging. */
module Table {
  import opened Wrappers

  /** How the database answers an INSERT ... COMMIT.  `Rejected` covers a
      trigger that signals an error or a violated constraint; `kind` is the
      driver's exception class and `message` its text (`str(e.orig)`). */
  datatype DbErrorKind = IntegrityError | OperationalError | OtherDbError

  datatype Verdict = Accepted | Rejected(kind: DbErrorKind, message: string)

  /** `SELECT MAX(key)`: NULL (`None`) on an empty table. */
  function MaxKey<T>(rows: seq<T>, key: T -> int): (m: Option<int>)
    ensures m.None? <==> |rows| == 0
    ensures m.Some? ==> exists i :: 0 <= i < |rows| && key(rows[i]) == m.value
    ensures m.Some? ==> forall i :: 0 <= i < |rows| ==> key(rows[i]) <= m.value
  {
    if |rows| == 0 then None
    else
      var rest := MaxKey(rows[1..], key);
      if rest.None? || key(rows[0]) >= rest.value then Some(key(rows[0])) else rest
  }

  /** `(max_id or 0) + 1`.  Python's `or` also maps a maximum of 0 to 0, which
      gives the same key as `max + 1`. */
  function NextKey<T>(rows: seq<T>, key: T -> int): (n: int)
    ensures |rows| == 0 ==> n == 1
    ensures |rows| > 0 ==> exists i :: 0 <= i < |rows| && key(rows[i]) == n - 1
    ensures forall i :: 0 <= i < |rows| ==> key(rows[i]) < n
  {
    var m := MaxKey(rows, key);
    (if m.None? || m.value == 0 then 0 else m.value) + 1
  }

  /** No two rows share a key. */
  ghost predicate KeysDistinct<T>(rows: seq<T>, key: T -> int) {
    forall i, j :: 0 <= i < j < |rows| ==> key(rows[i]) != key(rows[j])
  }

  /** Keys strictly increase along the stored order. */
  ghost predicate KeysIncreasing<T>(rows: seq<T>, key: T -> int) {
    forall i, j :: 0 <= i < j < |rows| ==> key(rows[i]) < key(rows[j])
  }

  /** A row keyed by `NextKey` is new: appending it keeps keys distinct and,
      on a table stored in key order, keeps that order. */
  lemma AppendNextKey<T>(rows: seq<T>, key: T -> int, row: T)
    requires key(row) == NextKey(rows, key)
    ensures KeysDistinct(rows, key) ==> KeysDistinct(rows + [row], key)
    ensures KeysIncreasing(rows, key) ==> KeysIncreasing(rows + [row], key)
  {
    var t := rows + [row];
    assert forall i :: 0 <= i < |rows| ==> t[i] == rows[i];
    assert t[|rows|] == row;
  }

  /** The largest literal MySQL accepts after `LIMIT` or `OFFSET`: an
      unsigned 64-bit integer.  A larger one is a syntax error. */
  const MaxLimitLiteral: int := 0xFFFF_FFFF_FFFF_FFFF

  /** Whether MySQL accepts `n` as a `LIMIT` or `OFFSET` literal. */
  predicate IsLimitLiteral(n: int) {
    0 <= n <= MaxLimitLiteral
  }

  /** `OFFSET skip LIMIT limit` over the stored order. */
  function Page<T>(rows: seq<T>, skip: nat, limit: nat): (r: seq<T>)
    ensures |r| == if skip >= |rows| then 0 else if |rows| - skip < limit then |rows| - skip else limit
    ensures forall i :: 0 <= i < |r| ==> r[i] == rows[skip + i]
  {
    if skip >= |rows| then []
    else rows[skip..if skip + limit < |rows| then skip + limit else |rows|]
  }

  /** Two consecutive pages read the same rows as one page of their joint
      size: paging neither skips nor repeats a row. */
  lemma PagesConcatenate<T>(rows: seq<T>, skip: nat, a: nat, b: nat)
    ensures Page(rows, skip, a) + Page(rows, skip + a, b) == Page(rows, skip, a + b)
  {
    var p := Page(rows, skip, a);
    var q := Page(rows, skip + a, b);
    var w := Page(rows, skip, a + b);
    assert |p + q| == |w|;
    forall i | 0 <= i < |w|
      ensures (p + q)[i] == w[i]
    {
      if i >= |p| {
        assert (p + q)[i] == q[i - |p|];
      }
    }
  }

  /** A page from offset 0 at least as large as the table is the whole table. */
  lemma FirstPageIsWhole<T>(rows: seq<T>, limit: nat)
    requires |rows| <= limit
    ensures Page(rows, 0, limit) == rows
  {
  }
}

=== FILE: wrappers.dfy ===
/** Failure-carrying values shared by the whole model: `Option` for a value
    that may be absent (a JSON `null`, a SQL `NULL`, an `undefined` property)
    and `Result` for a call that either returns a value or fails. */
module Wrappers {

  datatype Option<+T> = None | Some(value: T) {

    /** The value, or `default` when absent. */
    function GetOr(default: T): T {
      match this
      case Some(v) => v
      case None => default
    }
  }

  datatype Result<+R, +E> = Success(value: R) | Failure(error: E)
}
